=== FILE: README.md ===
# python-isolate, modelled in Dafny

`python-isolate` is a thin Python wrapper around the `isolate` sandbox tool.
It does four things:

- It turns an `IsolateOptions` record into the tool's command-line directives
  (`as_args`).
- It initialises a box with `isolate --init` and reads the box's working
  directory from the tool's output.
- It offers an `IsolateSandbox` object that can copy a host file into the box
  (`add_file`), run a program there (`run`) and tear the box down (`cleanup`).
- It wraps all of this in the `isolate(options, cleanup)` context manager,
  which re-raises failures of initialisation and of the `with` block as an
  `IsolateInitException` and, when `cleanup` is set, tears the box down on
  leaving the block; a failed teardown raises its own `IsolateException`,
  which is not re-wrapped.

This project models that core as pure functions over immutable data:

| module | models |
|---|---|
| `Wrappers` | `Option` (Python's `None`) and `Result` (a raised exception) |
| `Strings` | `str()` of an integer, of an optional integer and of a pair; `str.strip()` |
| `Paths` | `os.path.isabs`, two-argument `os.path.join`, `os.path.basename`, `str.startswith` |
| `IsolateOptions` | the options record, `as_args`, and `Parse`, a reader for the flag/value layout `as_args` writes (a value flag followed by its token) |
| `Sandbox` | `IsolateSandbox`: its directory layout, `add_file`, `run`, `cleanup` |
| `Lifecycle` | the `isolate()` context manager |

Calls of the external tool become parameters. Each is a `Completed` record
holding a return code and the output streams as text, assumed to decode as
UTF-8. A file-system query
(`os.path.exists`) becomes a boolean parameter. The way the `with` block ends
is also a parameter: it completes or it raises. An operation's result lists the
tool calls it makes (`Event`s) and the exception it ends with.

The model follows the code, including where the code differs from what the
package's documentation and design intent suggest:

- `add_file` checks containment only on the raw text of an absolute
  destination (`startswith`). A relative `../../etc/passwd` is accepted and
  joined below the box directory. An absolute `/w/boxer/f` passes the check
  for box `/w/box`. Nothing is normalised.
- The escape check comes before the source-existence check.
- `as_args` passes `str(self.time)` after `--wall-time`, not the wall-time
  value. When `time` is unset the tool receives the text `None`.
- A quota is passed as Python prints a tuple, `(a, b)`.
- A boolean-shaped field passes its bare flag whenever it is not `None`, so
  `False` passes the same flag as `True`.
- Without a `box_id`, the init call passes no `--box-id`, but the sandbox
  keeps `str(None)`. The teardown call then passes `--box-id None`.
- With a relative working directory, `add_file` without a destination joins the
  box directory onto the path twice.

## Model

| member | source | states |
|---|---|---|
| IsolateOptions.AsArgsDecodes | isolate/options.py:30-70 | reading `as_args(o)` back with `Parse`, the reader for its flag/value layout, gives exactly one directive per present field, in declaration order, each carrying its token: the encoder and the independent reader agree on every record |
| IsolateOptions.ParseEmitFrom | isolate/options.py:30-70 | the same round trip for the tokens of every suffix of the field list, proved by induction over the fields |
| IsolateOptions.ParseTokens | isolate/options.py:30-70 | one directive's tokens in front of any tail are read back as that directive followed by whatever the tail reads as |
| IsolateOptions.FieldOfFlag | isolate/options.py:30-69 | a directive name maps back only to the field that emits it |
| IsolateOptions.FieldOfFlagInverse | isolate/options.py:30-69 | every field's directive name maps back to that field, so no two fields share a name |
| IsolateOptions.DirectivesFacts | isolate/options.py:30-70 | a field has a directive exactly when it is not `None`; directives follow the declaration order strictly, so each field appears at most once; each carries its field's token |
| IsolateOptions.DirectivesFromComplete | isolate/options.py:30-70 | every present field's directive occurs in the directive list, at a position determined by the present fields before it |
| IsolateOptions.DirectivesFromSound | isolate/options.py:30-70 | every directive belongs to a present field and carries that field's token, and field positions strictly increase |
| IsolateOptions.AsArgsLength | isolate/options.py:30-70 | the argument list has two tokens per present value field and one per present boolean-shaped field |
| IsolateOptions.EmitFromLength | isolate/options.py:30-70 | the same count for the tokens of every suffix of the field list |
| IsolateOptions.AsArgsContains | isolate/options.py:30-70 | a present field's flag sits right after the tokens of the earlier fields, and a value field's token follows its flag immediately |
| IsolateOptions.AsArgsAround | isolate/options.py:30-70 | the argument list is the earlier fields' tokens, then the field's own tokens, then the later fields' tokens |
| IsolateOptions.EmitFromSplit | isolate/options.py:30-70 | the tokens from one field on split at any later field into a range and a suffix |
| IsolateOptions.EmitShape | isolate/options.py:30-69 | a present field contributes its flag, followed by its token exactly when it takes a value |
| IsolateOptions.WallTimeCarriesTime | isolate/options.py:38-39 | with `wall_time` set, the value after `--wall-time` is `str(time)`, the text `None` when `time` is unset, and never the wall-time value when the two differ |
| IsolateOptions.BoxIdDirective | isolate/options.py:42-43 | `box_id=n` passes `--box-id` followed by `str(n)`, which reads back as `n` |
| IsolateOptions.FlagIgnoresValue | isolate/options.py:56-57 | for a boolean-shaped field only presence matters: `False` produces the same arguments as `True` |
| IsolateOptions.NoOptionsNoArgs | isolate/options.py:10-31 | a record with every field `None` produces no arguments |
| IsolateOptions.EmitFromEmpty | isolate/options.py:30-70 | with no field present, no suffix of the field list contributes a token |
| IsolateOptions.EmitFromAgrees | isolate/options.py:30-70 | two records whose fields contribute the same tokens produce the same argument list |
| IsolateOptions.RankInjective | isolate/options.py:10-28 | distinct fields have distinct positions in the declaration order |
| IsolateOptions.FieldAt | isolate/options.py:10-28 | the field at a position has that position |
| Strings.IntToStringRoundTrip | isolate/options.py:70 | `str(i)` of an integer reads back as that integer, so distinct values pass distinct tokens |
| Strings.OptionalIntToStringRoundTrip | isolate/isolate.py:163 | `str()` of an optional integer reads back as the same optional value; `str(None)` is not an integer |
| Strings.DigitsValueOfNatToString | isolate/options.py:70 | the decimal digits of a natural number denote that number |
| Strings.NatToString | isolate/options.py:70 | `str(n)` is a non-empty string of digits without a leading zero |
| Strings.IntToString | isolate/options.py:70 | `str(i)` starts with a minus sign exactly for negative numbers and is otherwise all digits |
| Strings.Strip | isolate/isolate.py:162 | `strip()` returns a slice of its input, and everything it cuts off at either end is whitespace |
| Strings.StripLeavesNoSpaceAtEnds | isolate/isolate.py:162 | the result of `strip()` neither starts nor ends with whitespace, so all surrounding whitespace is removed |
| Strings.StripStart | isolate/isolate.py:162 | removing leading whitespace leaves a suffix of the input that does not start with whitespace, and everything removed is whitespace |
| Strings.StripEnd | isolate/isolate.py:162 | removing trailing whitespace leaves a prefix of the input that does not end with whitespace, and everything removed is whitespace |
| Strings.StripIdempotent | isolate/isolate.py:162 | stripping the working directory twice gives the same result as stripping it once |
| Paths.Join | isolate/isolate.py:42-43 | `os.path.join(a, b)`: an absolute `b` replaces `a`; otherwise the result starts with `a`, ends with `b`, and has exactly one separator between them unless `a` is empty or already ends with one |
| Paths.Basename | isolate/isolate.py:59 | `os.path.basename(p)` is the suffix of `p` after its last separator, holding no separator |
| Paths.LastSepEnd | isolate/isolate.py:59 | the position just after the last separator, with no separator after it |
| Paths.LastSepEndUnique | isolate/isolate.py:59 | those two properties single out the position |
| Paths.BasenameOfJoin | isolate/isolate.py:42-43 | joining a directory with a single segment gives a path whose base name is that segment |
| Paths.BasenameOfRelativeJoin | isolate/isolate.py:72-73 | joining a relative path onto a directory keeps its base name |
| Paths.JoinSegment | isolate/isolate.py:59 | a joined single segment starts with the directory, is named after the segment, and is absolute exactly when the directory is |
| Paths.JoinSegments | isolate/isolate.py:42-43 | two different segments joined onto the same directory give two different paths |
| Paths.JoinKeepsPrefix | isolate/isolate.py:72-73 | joining a relative path keeps the directory as a prefix |
| Paths.JoinRelative | isolate/isolate.py:72-73 | joining two relative paths gives a relative path |
| Sandbox.SandboxLayout | isolate/isolate.py:31-43 | a new sandbox keeps its options, working directory and box id; its box and scratch directories are different, both start with the working directory, and are named `box` and `tmp` |
| Sandbox.AddFile | isolate/isolate.py:45-87 | `add_file` rejects an absolute destination that does not start with the box directory, and only that, whether or not the source exists; it rejects a missing source otherwise; every accepted destination starts with the box directory |
| Sandbox.AddFileDestination | isolate/isolate.py:71-73 | a relative destination is joined below the box directory; an accepted absolute one is used unchanged |
| Sandbox.AddFileDefault | isolate/isolate.py:58-59 | without a destination, the file goes to the source's base name inside an absolute box directory |
| Sandbox.AddFileDefaultRelative | isolate/isolate.py:58-73 | with a relative box directory, the default destination is joined onto the box a second time, and the file still keeps its base name |
| Sandbox.EscapeCheckedFirst | isolate/isolate.py:61-69 | an escaping destination is reported even when the source is missing |
| Sandbox.RejectsOutsidePath | isolate/isolate.py:61-65 | `/etc/passwd` is rejected for box `/w/box` |
| Sandbox.AcceptsParentSegments | isolate/isolate.py:61-73 | `../../etc/passwd` is accepted for box `/w/box` and becomes `/w/box/../../etc/passwd` |
| Sandbox.AcceptsSiblingWithBoxPrefix | isolate/isolate.py:61-65 | `/w/boxer/f` passes the containment check for box `/w/box`, because the check is a string prefix test |
| Sandbox.ExampleSandbox | isolate/isolate.py:42 | a sandbox with working directory `/w` has box directory `/w/box` |
| Sandbox.RunCommand | isolate/isolate.py:100-103 | `run` passes `isolate --run`, then arguments that `Parse` reads back as the sandbox's option directives, then `--`, then the program and its arguments unchanged |
| Sandbox.Run | isolate/isolate.py:91-109 | `run` makes exactly one tool call and hands back its result without interpreting the return code |
| Sandbox.Cleanup | isolate/isolate.py:111-128 | `cleanup` empties the box before asking the tool to tear down this box id, and raises an `IsolateException` carrying the return code and both output streams exactly when the return code is non-zero |
| Lifecycle.InitCommand | isolate/isolate.py:149-150 | the init call is `isolate --init` followed by arguments that `Parse` reads back as the options' directives |
| Lifecycle.Isolate | isolate/isolate.py:134-172 | a failed init raises only the wrapped `IsolateInitException` and tears nothing down; otherwise the events are exactly one init call, one entry into the block with the sandbox built from the stripped output, and, when `cleanup` is set, one emptying of the box followed by one teardown call; the box is torn down exactly once when `cleanup` is set and never otherwise, each teardown naming this sandbox's box id and coming right after the box was emptied; the statement ends without error exactly when init, block and teardown all succeed; a block's exception is re-raised as an `IsolateInitException` and survives as the raised error or its context; only a failed teardown raises something else |
| Lifecycle.Entered | isolate/isolate.py:154-172 | after a successful init, the events are exactly the init call, one entry into the block, and the emptying and teardown call when `cleanup` is set; the teardown count, the box each teardown names, the emptying before it, and the error rules of the `finally` clause hold for any sandbox |
| Lifecycle.Finally | isolate/isolate.py:170-172 | the `finally` clause makes no call without `cleanup`, and exactly one emptying of the box followed by one teardown call with it; a failed teardown replaces the exception in flight and keeps it as context; otherwise the exception in flight is the result |
| Lifecycle.TeardownsAppend | isolate/isolate.py:170-172 | teardown calls add up over concatenated event sequences |
| Lifecycle.OpenedBoxId | isolate/isolate.py:163 | the sandbox's box id reads back as the options' box id, and is `None` when the options set none |
| Lifecycle.SameBoxForInitAndTeardown | isolate/isolate.py:122 | with a box id set, the teardown call names the same box id that the init call passed after `--box-id` |
| Lifecycle.InitWithoutBoxId | isolate/options.py:42-43 | without a box id, the init call passes no `--box-id` |
| Lifecycle.TeardownWithoutBoxId | isolate/isolate.py:122 | without a box id, the teardown call passes `--box-id None`, and `None` is not a decimal integer; what the `isolate` binary makes of that token is not modelled |
| Lifecycle.RunUsesInitDirectives | isolate/isolate.py:100-103 | a program run in the sandbox gets the same directives the box was initialised with |

## Left out

- Running the external tool is not modelled: `subprocess.run` is replaced by
  the `Completed` record it would return. A failure of `subprocess.run`
  itself, such as a missing binary, is not modelled.
- File writes in `add_file` are not modelled: creating directories, touching,
  `chown`, and the line-by-line copy. A successful `add_file` stands for
  "the target was written"; the model computes only the checks and the
  target path.
- The `isolate` binary's own argument parsing is not modelled. `Parse` is
  this model's reader for the flag/value layout `as_args` writes, a value flag
  followed by its token. The binary is not part of this model, and its own
  reading may differ, for instance for a flag whose value is optional, since
  such a value is not taken from the next token. The round-trip lemmas speak
  about `Parse`, not about the binary.
- Lifecycle.Isolate: the tool's output is assumed to decode as UTF-8. When
  `stdout` of a successful init does not, `.decode()` raises
  `UnicodeDecodeError`, the `except` clause wraps it as an
  `IsolateInitException`, and neither the block nor the teardown runs; the
  model has no such outcome, and the same holds for the init failure message.
- Sandbox.Cleanup: the teardown's output is assumed to decode as UTF-8. When
  a failed teardown's output does not, `cleanup` raises `UnicodeDecodeError`
  instead of an `IsolateException`; the model always reports `TeardownFailed`.
- `os.path.exists(source)` is a boolean parameter, not a file-system query.
- `remove_directory_contents` is not part of this model. It appears as an
  `EmptyBox` event, and its own failures are not modelled.
- Logging and `IsolateSandbox.__str__` only produce text for humans.
- Exception messages are not formatted. An error carries its return code and
  output instead of the text `[rc] output` or `(rc) output`.
  `IsolateInitException(str(e))` keeps the original error instead of its
  string.
- Lifecycle.Isolate: the calls the `with` block makes (`add_file`, `run`,
  even an explicit `cleanup`) are not in its event list. They are modelled
  on their own by `AddFile`, `Run` and `Cleanup`.
- Lifecycle.Isolate: exceptions that are not `Exception` subclasses
  (`KeyboardInterrupt`, `GeneratorExit`) are not modelled.
- Strings.IntToString: Python's limit on converting a large integer to text
  is not modelled. Newer interpreters (3.11 on, and security releases of
  3.7-3.10) raise `ValueError` by default for an integer with more than 4300
  digits (`sys.get_int_max_str_digits`). The model's `str()` is total and
  Python integers are otherwise unbounded, like Dafny's.
- IsolateOptions.AsArgs: under that limit, an options field or quota element
  with more than 4300 digits makes `as_args` raise `ValueError`; the model
  always yields a token. `run` then raises before it calls the tool, which
  `Sandbox.Run` does not model.
- Lifecycle.Isolate: under that limit, `as_args` raises at isolate/isolate.py:150,
  before the `try` block, so the `ValueError` escapes unwrapped and
  no init call is made; the model always starts with the init call and
  wraps every error other than a teardown failure.
- `setup.py` and the test suite are packaging and usage, not behaviour.

=== FILE: lifecycle.dfy ===
/** The `isolate(options, cleanup)` context manager: initialise a box, hand
    the sandbox to the caller's `with` block, and, when `cleanup` is set, tear
    the box down when the block is left. The tool's answers and the way the block ends are
    parameters; what the model computes is the sequence of tool calls and the
    exception the `with` statement ends with. */
module Lifecycle {
  import opened Wrappers
  import opened Strings
  import opened IsolateOptions
  import opened Sandbox

  /** The command that initialises a box: `isolate --init` followed by the
      options' directives. */
  function InitCommand(options: Options): (cmd: seq<string>)
    ensures |cmd| == 2 + |AsArgs(options)|
    ensures cmd[..2] == ["isolate", "--init"]
    ensures Parse(cmd[2..]) == Success(Directives(options))
  {
    var cmd := ["isolate", "--init"] + AsArgs(options);
    assert cmd[2..] == AsArgs(options);
    AsArgsDecodes(options);
    cmd
  }

  /** How the caller's `with` block ends: normally, or by raising. */
  datatype BodyOutcome = Completes | Throws(error: Error)

  /** The tool calls and steps of one `with isolate(...)` statement and the
      exception it ends with. `context` records only the exception that a
      failed teardown replaced; the chaining done by the `except` clause,
      which wraps an error into an `IsolateInitException`, is kept in
      `InitWrapped.cause`. */
  datatype Session = Session(events: seq<Event>, error: Option<Error>, context: Option<Error>)

  /** How many teardown calls of the tool a sequence of events holds. */
  function Teardowns(events: seq<Event>): (n: nat)
    decreases |events|
  {
    if |events| == 0 then 0
    else Teardowns(events[..|events| - 1]) + (if IsTeardown(events[|events| - 1]) then 1 else 0)
  }

  lemma {:induction false} TeardownsAppend(a: seq<Event>, b: seq<Event>)
    ensures Teardowns(a + b) == Teardowns(a) + Teardowns(b)
    decreases |b|
  {
    if |b| > 0 {
      var b' := b[..|b| - 1];
      assert (a + b)[..|a + b| - 1] == a + b';
      TeardownsAppend(a, b');
    } else {
      assert a + b == a;
    }
  }

  /** The teardowns among two events. */
  lemma TeardownsOfPair(e: Event, f: Event)
    ensures Teardowns([e, f]) == (if IsTeardown(e) then 1 else 0) + (if IsTeardown(f) then 1 else 0)
  {
    var p := [e, f];
    assert p[..1] == [e] && p[1] == f;
    assert [e][..0] == [] && [e][0] == e;
    assert Teardowns([e]) == Teardowns([]) + (if IsTeardown(e) then 1 else 0);
  }

  /** Every teardown call in `events` tears down the box of `s`, and comes
      right after that box's directory was emptied. */
  predicate TearsDownAfterEmptying(events: seq<Event>, s: Sandbox) {
    forall i :: 0 <= i < |events| && IsTeardown(events[i]) ==>
      events[i] == Invoke(TeardownCommand(s)) && i > 0 && events[i - 1] == EmptyBox(s.boxdir)
  }

  lemma TearsDownAfterEmptyingAppend(a: seq<Event>, b: seq<Event>, s: Sandbox)
    requires TearsDownAfterEmptying(a, s) && TearsDownAfterEmptying(b, s)
    ensures TearsDownAfterEmptying(a + b, s)
  {
    forall i | 0 <= i < |a + b| && IsTeardown((a + b)[i])
      ensures (a + b)[i] == Invoke(TeardownCommand(s)) && i > 0 && (a + b)[i - 1] == EmptyBox(s.boxdir)
    {
      if i >= |a| {
        assert (a + b)[i] == b[i - |a|];
        assert (a + b)[i - 1] == b[i - 1 - |a|];
      } else {
        assert (a + b)[i] == a[i];
      }
    }
  }

  /** The sandbox the block receives after a successful initialisation: the
      working directory is the tool's output without surrounding whitespace,
      and the box id is `str(options.box_id)`. */
  function Opened(options: Options, init: Completed): (s: Sandbox) {
    NewSandbox(options, Strip(init.stdout), OptionalIntToString(options.boxId))
  }

  /** The box id the sandbox keeps reads back as the id in the options, and
      is the text "None", which is not a decimal integer, when the options
      set none; what the `isolate` binary makes of that text is not
      modelled. */
  lemma OpenedBoxId(options: Options, init: Completed)
    ensures ParseInt(Opened(options, init).boxId) == options.boxId
    ensures options.boxId.None? ==> Opened(options, init).boxId == "None"
  {
    OptionalIntToStringRoundTrip(options.boxId);
  }

  /** The `finally` clause once the sandbox exists: tear the box down when
      `cleanup` is set. `inFlight` is the exception leaving the `try` block,
      if any; a failed teardown replaces it and keeps it as its context. */
  function Finally(s: Sandbox, cleanup: bool, inFlight: Option<Error>, teardown: Completed)
    : (r: Session)
    requires inFlight.None? || inFlight.value.InitWrapped?
    ensures r.events == if cleanup then [EmptyBox(s.boxdir), Invoke(TeardownCommand(s))] else []
    ensures Teardowns(r.events) == if cleanup then 1 else 0
    ensures TearsDownAfterEmptying(r.events, s)
    ensures r.error.None? <==> inFlight.None? && (!cleanup || teardown.returncode == 0)
    ensures r.error.Some? && r.error.value.TeardownFailed? <==> cleanup && teardown.returncode != 0
    ensures r.error.Some? && !r.error.value.TeardownFailed? ==> r.error == inFlight
    ensures r.context.Some? ==> r.error.Some? && r.error.value.TeardownFailed? && r.context == inFlight
    ensures inFlight.Some? ==> inFlight in {r.error, r.context}
  {
    if !cleanup then
      Session([], inFlight, None)
    else
      var c := Cleanup(s, teardown);
      TeardownsOfPair(c.events[0], c.events[1]);
      assert c.events == [c.events[0], c.events[1]];
      if c.error.Some? then Session(c.events, c.error, inFlight)
      else Session(c.events, inFlight, None)
  }

  /** The `with` statement once the init call `start` has succeeded and
      produced the sandbox `s`: the block is entered, and the `finally`
      clause runs with whatever the block raised, re-raised as an
      `IsolateInitException`. */
  function Entered(start: Event, s: Sandbox, cleanup: bool, body: BodyOutcome, teardown: Completed)
    : (r: Session)
    requires !IsTeardown(start)
    ensures |r.events| >= 2 && r.events[..2] == [start, Enter(s)]
    ensures r.events == [start, Enter(s)]
      + (if cleanup then [EmptyBox(s.boxdir), Invoke(TeardownCommand(s))] else [])
    ensures Teardowns(r.events) == if cleanup then 1 else 0
    ensures TearsDownAfterEmptying(r.events, s)
    ensures r.error.None? <==> body.Completes? && (!cleanup || teardown.returncode == 0)
    ensures r.error.Some? && r.error.value.TeardownFailed? <==> cleanup && teardown.returncode != 0
    ensures r.error.Some? && !r.error.value.TeardownFailed? ==> r.error.value.InitWrapped?
    ensures body.Throws? ==> Some(InitWrapped(body.error)) in {r.error, r.context}
    ensures r.context.Some? ==> r.error.Some? && r.error.value.TeardownFailed?
  {
    var entered := [start, Enter(s)];
    TeardownsOfPair(start, Enter(s));
    var inFlight := if body.Throws? then Some(InitWrapped(body.error)) else None;
    var f := Finally(s, cleanup, inFlight, teardown);
    TeardownsAppend(entered, f.events);
    TearsDownAfterEmptyingAppend(entered, f.events, s);
    Session(entered + f.events, f.error, f.context)
  }

  /** `with isolate(options, cleanup) as sandbox: <block>`.
      A failed initialisation raises an `IsolateInitException` and tears
      nothing down. Otherwise the block receives the sandbox; an exception
      from the block is re-raised as an `IsolateInitException`; and when
      `cleanup` is set the box is torn down exactly once, right after the box
      was emptied, whether or not the block raised. A failed teardown raises
      its own `IsolateException`, which replaces the one in flight. */
  function Isolate(options: Options, cleanup: bool, init: Completed, body: BodyOutcome,
                   teardown: Completed): (r: Session)
    ensures |r.events| >= 1 && r.events[0] == Invoke(InitCommand(options))
    ensures init.returncode != 0 ==>
      r.events == [r.events[0]] && r.context.None?
      && r.error == Some(InitWrapped(InitFailed(init.returncode, init.stdout + init.stderr)))
    ensures init.returncode == 0 ==>
      |r.events| >= 2 && r.events[1] == Enter(Opened(options, init))
      && TearsDownAfterEmptying(r.events, Opened(options, init))
    ensures init.returncode == 0 ==>
      var s := Opened(options, init);
      r.events == [Invoke(InitCommand(options)), Enter(s)]
        + (if cleanup then [EmptyBox(s.boxdir), Invoke(TeardownCommand(s))] else [])
    ensures Teardowns(r.events) == if init.returncode == 0 && cleanup then 1 else 0
    ensures r.error.None?
      <==> init.returncode == 0 && body.Completes? && (!cleanup || teardown.returncode == 0)
    ensures r.error.Some? && r.error.value.TeardownFailed?
      <==> init.returncode == 0 && cleanup && teardown.returncode != 0
    ensures r.error.Some? && !r.error.value.TeardownFailed? ==> r.error.value.InitWrapped?
    ensures init.returncode == 0 && body.Throws? ==>
      Some(InitWrapped(body.error)) in {r.error, r.context}
    ensures r.context.Some? ==> r.error.Some? && r.error.value.TeardownFailed?
  {
    var start := Invoke(InitCommand(options));
    assert !IsTeardown(start);
    if init.returncode != 0 then
      TeardownsOfPair(start, start);
      assert [start][..0] == [];
      Session([start], Some(InitWrapped(InitFailed(init.returncode, init.stdout + init.stderr))), None)
    else
      var r := Entered(start, Opened(options, init), cleanup, body, teardown);
      assert r.events[0] == r.events[..2][0];
      r
  }

  /** The init call and the teardown call name the same box: the teardown's
      `--box-id` argument is the value the init call was given for
      `--box-id`, and it reads back as the id in the options. */
  lemma SameBoxForInitAndTeardown(options: Options, init: Completed)
    requires options.boxId.Some?
    ensures var id := TeardownCommand(Opened(options, init))[3];
      && Directive(BoxId, Some(id)) in Parse(InitCommand(options)[2..]).value
      && ParseInt(id) == options.boxId
  {
    BoxIdDirective(options);
  }

  /** Without a box id in the options the init call passes no `--box-id`. */
  lemma InitWithoutBoxId(options: Options)
    requires options.boxId.None?
    ensures BoxId !in FieldsOf(Parse(InitCommand(options)[2..]).value)
  {
    assert !IsSet(options, BoxId);
    DirectivesFacts(options);
  }

  /** Without a box id in the options the teardown call still passes
      `--box-id`, followed by the text "None", which is not a decimal
      integer; what the `isolate` binary makes of it is not modelled. */
  lemma TeardownWithoutBoxId(options: Options, init: Completed)
    requires options.boxId.None?
    ensures TeardownCommand(Opened(options, init)) == ["isolate", "--cleanup", "--box-id", "None"]
    ensures ParseInt(TeardownCommand(Opened(options, init))[3]).None?
  {
    OpenedBoxId(options, init);
  }

  /** A program run in the sandbox gets the same directives the box was
      initialised with. */
  lemma RunUsesInitDirectives(options: Options, init: Completed, runArgs: seq<string>)
    ensures var cmd := RunCommand(Opened(options, init), runArgs);
      Parse(cmd[2..|cmd| - |runArgs| - 1]) == Parse(InitCommand(options)[2..])
  {
  }
}

=== FILE: options.dfy ===
/** `IsolateOptions` and its encoder `as_args`: nineteen optional settings
    turned into the command-line directives of the `isolate` tool. */
module IsolateOptions {
  import opened Wrappers
  import opened Strings

  /** The settings record. Every field may be absent (`None`); an absent field
      passes no directive. */
  datatype Options = Options(
    meta: Option<string>,
    mem: Option<int>,
    time: Option<int>,
    wallTime: Option<int>,
    extraTime: Option<int>,
    boxId: Option<int>,
    stack: Option<int>,
    fsize: Option<int>,
    quota: Option<(int, int)>,
    stdin: Option<string>,
    stdout: Option<string>,
    stderr: Option<string>,
    stderrToStdout: Option<bool>,
    chdir: Option<string>,
    processes: Option<int>,
    shareNet: Option<bool>,
    inheritFds: Option<bool>,
    verbose: Option<bool>,
    silent: Option<bool>)

  /** `IsolateOptions()`: every field absent. */
  function NoOptions(): (o: Options) {
    Options(None, None, None, None, None, None, None, None, None, None,
            None, None, None, None, None, None, None, None, None)
  }

  /** The fields of the record, named independently of their values. */
  datatype Field =
    | Meta | Mem | Time | WallTime | ExtraTime | BoxId | Stack | Fsize | Quota
    | Stdin | Stdout | Stderr | StderrToStdout | Chdir | Processes
    | ShareNet | InheritFds | Verbose | Silent

  /** The fields in declaration order, which is the order of the directives. */
  const AllFields: seq<Field> :=
    [Meta, Mem, Time, WallTime, ExtraTime, BoxId, Stack, Fsize, Quota,
     Stdin, Stdout, Stderr, StderrToStdout, Chdir, Processes,
     ShareNet, InheritFds, Verbose, Silent]

  /** The position of a field in the declaration order. */
  function Rank(f: Field): (n: nat)
    ensures n < |AllFields|
  {
    match f
    case Meta => 0 case Mem => 1 case Time => 2 case WallTime => 3
    case ExtraTime => 4 case BoxId => 5 case Stack => 6 case Fsize => 7
    case Quota => 8 case Stdin => 9 case Stdout => 10 case Stderr => 11
    case StderrToStdout => 12 case Chdir => 13 case Processes => 14
    case ShareNet => 15 case InheritFds => 16 case Verbose => 17 case Silent => 18
  }

  /** The directive name of each field. */
  function Flag(f: Field): (name: string) {
    match f
    case Meta => "--meta" case Mem => "--mem" case Time => "--time"
    case WallTime => "--wall-time" case ExtraTime => "--extra-time"
    case BoxId => "--box-id" case Stack => "--stack" case Fsize => "--fsize"
    case Quota => "--quota" case Stdin => "--stdin" case Stdout => "--stdout"
    case Stderr => "--stderr" case StderrToStdout => "--stderr-to-stdout"
    case Chdir => "--chdir" case Processes => "--processes"
    case ShareNet => "--share-net" case InheritFds => "--inherit-fds"
    case Verbose => "--verbose" case Silent => "--silent"
  }

  /** The field a directive name belongs to, if any (inverse of `Flag`). */
  function FieldOfFlag(s: string): (r: Option<Field>)
    ensures r.Some? ==> Flag(r.value) == s
  {
    if s == "--meta" then Some(Meta)
    else if s == "--mem" then Some(Mem)
    else if s == "--time" then Some(Time)
    else if s == "--wall-time" then Some(WallTime)
    else if s == "--extra-time" then Some(ExtraTime)
    else if s == "--box-id" then Some(BoxId)
    else if s == "--stack" then Some(Stack)
    else if s == "--fsize" then Some(Fsize)
    else if s == "--quota" then Some(Quota)
    else if s == "--stdin" then Some(Stdin)
    else if s == "--stdout" then Some(Stdout)
    else if s == "--stderr" then Some(Stderr)
    else if s == "--stderr-to-stdout" then Some(StderrToStdout)
    else if s == "--chdir" then Some(Chdir)
    else if s == "--processes" then Some(Processes)
    else if s == "--share-net" then Some(ShareNet)
    else if s == "--inherit-fds" then Some(InheritFds)
    else if s == "--verbose" then Some(Verbose)
    else if s == "--silent" then Some(Silent)
    else None
  }

  lemma FieldOfFlagInverse(f: Field)
    ensures FieldOfFlag(Flag(f)) == Some(f)
  {
  }

  /** The five boolean-shaped fields pass a bare flag; the others a value. */
  predicate TakesValue(f: Field) {
    !(f.StderrToStdout? || f.ShareNet? || f.InheritFds? || f.Verbose? || f.Silent?)
  }

  /** Whether field `f` of `o` is present (not `None`). */
  predicate IsSet(o: Options, f: Field) {
    match f
    case Meta => o.meta.Some? case Mem => o.mem.Some? case Time => o.time.Some?
    case WallTime => o.wallTime.Some? case ExtraTime => o.extraTime.Some?
    case BoxId => o.boxId.Some? case Stack => o.stack.Some?
    case Fsize => o.fsize.Some? case Quota => o.quota.Some?
    case Stdin => o.stdin.Some? case Stdout => o.stdout.Some?
    case Stderr => o.stderr.Some? case StderrToStdout => o.stderrToStdout.Some?
    case Chdir => o.chdir.Some? case Processes => o.processes.Some?
    case ShareNet => o.shareNet.Some? case InheritFds => o.inheritFds.Some?
    case Verbose => o.verbose.Some? case Silent => o.silent.Some?
  }

  /** The token passed after the flag of a present value field: `str()` of the
      field's value, except for `--wall-time`, which carries `str(time)`. */
  function Token(o: Options, f: Field): (t: string)
    requires TakesValue(f) && IsSet(o, f)
  {
    match f
    case Meta => o.meta.value
    case Mem => IntToString(o.mem.value)
    case Time => IntToString(o.time.value)
    case WallTime => OptionalIntToString(o.time)
    case ExtraTime => IntToString(o.extraTime.value)
    case BoxId => IntToString(o.boxId.value)
    case Stack => IntToString(o.stack.value)
    case Fsize => IntToString(o.fsize.value)
    case Quota => PairToString(o.quota.value)
    case Stdin => o.stdin.value
    case Stdout => o.stdout.value
    case Stderr => o.stderr.value
    case Chdir => o.chdir.value
    case Processes => IntToString(o.processes.value)
  }

  /** One directive of the flag/value layout `as_args` writes: a field and,
      for a value field, the token after the flag. */
  datatype Directive = Directive(field: Field, value: Option<string>)

  /** The directive field `f` of `o` contributes. */
  function DirectiveOf(o: Options, f: Field): (d: Directive)
    requires IsSet(o, f)
  {
    Directive(f, if TakesValue(f) then Some(Token(o, f)) else None)
  }

  /** The field at position `k` of the declaration order (inverse of `Rank`). */
  function FieldAt(k: nat): (f: Field)
    requires k < |AllFields|
    ensures Rank(f) == k
  {
    AllFields[k]
  }

  /** Each field sits at its own position. */
  lemma FieldAtRank(f: Field)
    ensures FieldAt(Rank(f)) == f
  {
  }

  /** Distinct fields have distinct positions. */
  lemma RankInjective(f: Field, g: Field)
    requires Rank(f) == Rank(g)
    ensures f == g
  {
    FieldAtRank(f);
    FieldAtRank(g);
  }

  /** The directives of the present fields from position `k` on, in field
      order. */
  function DirectivesFrom(o: Options, k: nat): (ds: seq<Directive>)
    requires k <= |AllFields|
    decreases |AllFields| - k
  {
    if k == |AllFields| then []
    else if IsSet(o, FieldAt(k)) then [DirectiveOf(o, FieldAt(k))] + DirectivesFrom(o, k + 1)
    else DirectivesFrom(o, k + 1)
  }

  function FieldsOf(ds: seq<Directive>): (fs: seq<Field>)
    ensures |fs| == |ds|
    ensures forall i :: 0 <= i < |ds| ==> fs[i] == ds[i].field
  {
    seq(|ds|, i requires 0 <= i < |ds| => ds[i].field)
  }

  /** The directives `o` stands for: one per present field, in field order. */
  function Directives(o: Options): (ds: seq<Directive>) {
    DirectivesFrom(o, 0)
  }

  /** The tokens of one directive. */
  function Tokens(d: Directive): (r: seq<string>)
    ensures |r| == if d.value.Some? then 2 else 1
  {
    match d.value
    case Some(v) => [Flag(d.field), v]
    case None => [Flag(d.field)]
  }

  /** The tokens field `f` of `o` contributes to the argument list. */
  function Emit(o: Options, f: Field): (ts: seq<string>) {
    if IsSet(o, f) then Tokens(DirectiveOf(o, f)) else []
  }

  /** The tokens of the fields from position `k` on, one field after the
      other. */
  function EmitFrom(o: Options, k: nat): (ts: seq<string>)
    requires k <= |AllFields|
    decreases |AllFields| - k
  {
    if k == |AllFields| then [] else Emit(o, FieldAt(k)) + EmitFrom(o, k + 1)
  }

  /** `as_args`: for every field in declaration order, the tokens it
      contributes when present. */
  function AsArgs(o: Options): (args: seq<string>) {
    EmitFrom(o, 0)
  }

  datatype ParseError = UnknownToken(token: string) | MissingValue(flag: string)

  /** A reader for the flag/value layout `as_args` writes: a value flag is
      followed by its token, which is taken whatever it looks like; a bare
      flag stands alone; any other token is an error. It is the model's own
      reader, not the `isolate` binary's argument parser. */
  function Parse(args: seq<string>): (r: Result<seq<Directive>, ParseError>)
    decreases |args|
  {
    if args == [] then Success([])
    else match FieldOfFlag(args[0])
      case None => Failure(UnknownToken(args[0]))
      case Some(f) =>
        if TakesValue(f) then
          if |args| < 2 then Failure(MissingValue(args[0]))
          else
            var rest :- Parse(args[2..]);
            Success([Directive(f, Some(args[1]))] + rest)
        else
          var rest :- Parse(args[1..]);
          Success([Directive(f, None)] + rest)
  }

  // ---------------------------------------------------------------------
  // Properties of the encoder
  // ---------------------------------------------------------------------

  /** Reading one directive's tokens in front of a tail. */
  lemma ParseTokens(d: Directive, tail: seq<string>)
    requires d.value.Some? == TakesValue(d.field)
    ensures Parse(Tokens(d) + tail)
      == if Parse(tail).Success? then Success([d] + Parse(tail).value) else Parse(tail)
  {
    var args := Tokens(d) + tail;
    FieldOfFlagInverse(d.field);
    assert args[0] == Flag(d.field);
    if d.value.Some? {
      assert args[2..] == tail;
    } else {
      assert args[1..] == tail;
    }
  }

  lemma {:induction false} ParseEmitFrom(o: Options, k: nat)
    requires k <= |AllFields|
    ensures Parse(EmitFrom(o, k)) == Success(DirectivesFrom(o, k))
    decreases |AllFields| - k
  {
    if k < |AllFields| {
      var f := FieldAt(k);
      ParseEmitFrom(o, k + 1);
      if IsSet(o, f) {
        var d := DirectiveOf(o, f);
        assert EmitFrom(o, k) == Tokens(d) + EmitFrom(o, k + 1);
        ParseTokens(d, EmitFrom(o, k + 1));
      } else {
        assert EmitFrom(o, k) == EmitFrom(o, k + 1);
      }
    }
  }

  /** Round trip: reading back `as_args(o)` gives exactly the directives of
      the present fields, each with its token, in field order. */
  lemma AsArgsDecodes(o: Options)
    ensures Parse(AsArgs(o)) == Success(Directives(o))
  {
    ParseEmitFrom(o, 0);
  }

  /** Where the directive of a present field sits in `DirectivesFrom(o, k)`. */
  function DirectiveIndex(o: Options, k: nat, f: Field): (i: nat)
    requires k <= Rank(f)
    decreases |AllFields| - k
  {
    if k == Rank(f) then 0
    else (if IsSet(o, FieldAt(k)) then 1 else 0) + DirectiveIndex(o, k + 1, f)
  }

  lemma {:induction false} DirectivesFromComplete(o: Options, k: nat, f: Field)
    requires k <= Rank(f) && IsSet(o, f)
    ensures DirectiveIndex(o, k, f) < |DirectivesFrom(o, k)|
    ensures DirectivesFrom(o, k)[DirectiveIndex(o, k, f)] == DirectiveOf(o, f)
    decreases |AllFields| - k
  {
    if k < Rank(f) {
      DirectivesFromComplete(o, k + 1, f);
      DirectivesFromStep(o, k, f);
    } else {
      DirectivesFromAt(o, f);
    }
  }

  /** The directive of `f` stays in place, shifted by the directive of the
      field at `k` if that one is present. */
  lemma DirectivesFromStep(o: Options, k: nat, f: Field)
    requires k < Rank(f) && IsSet(o, f)
    requires DirectiveIndex(o, k + 1, f) < |DirectivesFrom(o, k + 1)|
    requires DirectivesFrom(o, k + 1)[DirectiveIndex(o, k + 1, f)] == DirectiveOf(o, f)
    ensures DirectiveIndex(o, k, f) < |DirectivesFrom(o, k)|
    ensures DirectivesFrom(o, k)[DirectiveIndex(o, k, f)] == DirectiveOf(o, f)
  {
    var g := FieldAt(k);
    var head := if IsSet(o, g) then [DirectiveOf(o, g)] else [];
    DirectivesFromUnfold(o, k);
    assert DirectiveIndex(o, k, f) == |head| + DirectiveIndex(o, k + 1, f);
    IndexAfterHead(head, DirectivesFrom(o, k + 1), DirectiveIndex(o, k + 1, f));
  }

  /** A present field's directive heads the directives from its own position. */
  lemma DirectivesFromAt(o: Options, f: Field)
    requires IsSet(o, f)
    ensures DirectiveIndex(o, Rank(f), f) == 0 < |DirectivesFrom(o, Rank(f))|
    ensures DirectivesFrom(o, Rank(f))[0] == DirectiveOf(o, f)
  {
    FieldAtRank(f);
    DirectivesFromUnfold(o, Rank(f));
  }

  lemma IndexAfterHead<T>(head: seq<T>, rest: seq<T>, j: nat)
    requires j < |rest|
    ensures |head| + j < |head + rest| && (head + rest)[|head| + j] == rest[j]
  {
  }

  /** One step of `DirectivesFrom`: the directive of the field at `k`, if
      present, in front of the rest. */
  lemma DirectivesFromUnfold(o: Options, k: nat)
    requires k < |AllFields|
    ensures var g := FieldAt(k);
      DirectivesFrom(o, k)
        == (if IsSet(o, g) then [DirectiveOf(o, g)] else []) + DirectivesFrom(o, k + 1)
  {
  }

  /** Every directive from position `k` on belongs to a present field at or
      after `k`, carries that field's token, and the fields strictly increase. */
  lemma {:induction false} DirectivesFromSound(o: Options, k: nat)
    requires k <= |AllFields|
    ensures forall i :: 0 <= i < |DirectivesFrom(o, k)| ==>
      k <= Rank(DirectivesFrom(o, k)[i].field)
    ensures forall i :: 0 <= i < |DirectivesFrom(o, k)| ==>
      IsSet(o, DirectivesFrom(o, k)[i].field)
      && DirectivesFrom(o, k)[i] == DirectiveOf(o, DirectivesFrom(o, k)[i].field)
    ensures forall i, j :: 0 <= i < j < |DirectivesFrom(o, k)| ==>
      Rank(DirectivesFrom(o, k)[i].field) < Rank(DirectivesFrom(o, k)[j].field)
    decreases |AllFields| - k
  {
    if k < |AllFields| {
      DirectivesFromSound(o, k + 1);
      var g := FieldAt(k);
      var rest := DirectivesFrom(o, k + 1);
      if IsSet(o, g) {
        var ds := [DirectiveOf(o, g)] + rest;
        assert DirectivesFrom(o, k) == ds;
        assert forall i :: 0 < i < |ds| ==> ds[i] == rest[i - 1];
        assert ds[0].field == g && Rank(g) == k;
      } else {
        assert DirectivesFrom(o, k) == rest;
      }
    }
  }

  /** The directives of `as_args(o)`: a field has a directive exactly when it
      is present, in field order, each at most once, carrying its token. */
  lemma DirectivesFacts(o: Options)
    ensures forall f :: IsSet(o, f) <==> f in FieldsOf(Directives(o))
    ensures forall i, j :: 0 <= i < j < |Directives(o)| ==>
      Rank(Directives(o)[i].field) < Rank(Directives(o)[j].field)
    ensures forall i :: 0 <= i < |Directives(o)| ==>
      Directives(o)[i] == DirectiveOf(o, Directives(o)[i].field)
  {
    DirectivesFromSound(o, 0);
    forall f | IsSet(o, f)
      ensures f in FieldsOf(Directives(o))
    {
      DirectivesFromComplete(o, 0, f);
      assert FieldsOf(Directives(o))[DirectiveIndex(o, 0, f)] == f;
    }
  }

  function ValueCount(o: Options, k: nat): (n: nat)
    requires k <= |AllFields|
    decreases |AllFields| - k
  {
    if k == |AllFields| then 0
    else (if IsSet(o, FieldAt(k)) && TakesValue(FieldAt(k)) then 1 else 0) + ValueCount(o, k + 1)
  }

  function FlagCount(o: Options, k: nat): (n: nat)
    requires k <= |AllFields|
    decreases |AllFields| - k
  {
    if k == |AllFields| then 0
    else (if IsSet(o, FieldAt(k)) && !TakesValue(FieldAt(k)) then 1 else 0) + FlagCount(o, k + 1)
  }

  lemma {:induction false} EmitFromLength(o: Options, k: nat)
    requires k <= |AllFields|
    ensures |EmitFrom(o, k)| == 2 * ValueCount(o, k) + FlagCount(o, k)
    decreases |AllFields| - k
  {
    if k < |AllFields| {
      EmitFromLength(o, k + 1);
    }
  }

  /** The argument list has two tokens per present value field and one per
      present flag-only field. */
  lemma AsArgsLength(o: Options)
    ensures |AsArgs(o)| == 2 * ValueCount(o, 0) + FlagCount(o, 0)
  {
    EmitFromLength(o, 0);
  }

  /** The tokens of the fields at positions `k` up to (not including) `m`. */
  function EmitRange(o: Options, k: nat, m: nat): (ts: seq<string>)
    requires k <= m <= |AllFields|
    decreases m - k
  {
    if k == m then [] else Emit(o, FieldAt(k)) + EmitRange(o, k + 1, m)
  }

  lemma {:induction false} EmitFromSplit(o: Options, k: nat, m: nat)
    requires k <= m <= |AllFields|
    ensures EmitFrom(o, k) == EmitRange(o, k, m) + EmitFrom(o, m)
    decreases m - k
  {
    if k < m {
      EmitFromSplit(o, k + 1, m);
      var g := Emit(o, FieldAt(k));
      assert EmitFrom(o, k) == g + EmitFrom(o, k + 1);
      assert EmitRange(o, k, m) == g + EmitRange(o, k + 1, m);
    }
  }

  /** `as_args(o)` is what the fields before `f` contribute, then `f`'s own
      tokens, then what the fields after `f` contribute. */
  lemma AsArgsAround(o: Options, f: Field)
    ensures AsArgs(o) == EmitRange(o, 0, Rank(f)) + (Emit(o, f) + EmitFrom(o, Rank(f) + 1))
  {
    var k := Rank(f);
    EmitFromSplit(o, 0, k);
    FieldAtRank(f);
    EmitFromUnfold(o, k);
  }

  lemma EmitFromUnfold(o: Options, k: nat)
    requires k < |AllFields|
    ensures EmitFrom(o, k) == Emit(o, FieldAt(k)) + EmitFrom(o, k + 1)
  {
  }

  /** The tokens of a present field: its flag, then its token if it takes a
      value. */
  lemma EmitShape(o: Options, f: Field)
    requires IsSet(o, f)
    ensures |Emit(o, f)| == if TakesValue(f) then 2 else 1
    ensures Emit(o, f)[0] == Flag(f)
    ensures TakesValue(f) ==> Emit(o, f)[1] == Token(o, f)
  {
  }

  /** A present value field contributes its flag immediately followed by its
      token, after the tokens of the earlier fields; a present flag-only field
      contributes its flag alone. */
  lemma AsArgsContains(o: Options, f: Field)
    requires IsSet(o, f)
    ensures var i := |EmitRange(o, 0, Rank(f))|;
      && i < |AsArgs(o)|
      && AsArgs(o)[i] == Flag(f)
      && (TakesValue(f) ==> i + 1 < |AsArgs(o)| && AsArgs(o)[i + 1] == Token(o, f))
  {
    AsArgsAround(o, f);
    EmitShape(o, f);
    var before := EmitRange(o, 0, Rank(f));
    var e := Emit(o, f);
    var after := EmitFrom(o, Rank(f) + 1);
    IndexInMiddle(before, e, after, 0);
    if TakesValue(f) {
      IndexInMiddle(before, e, after, 1);
    }
  }

  lemma IndexInMiddle<T>(a: seq<T>, b: seq<T>, c: seq<T>, i: nat)
    requires i < |b|
    ensures |a| + i < |a + (b + c)| && (a + (b + c))[|a| + i] == b[i]
  {
  }

  /** The value after `--wall-time` is `str(time)`, not `str(wall_time)`:
      whenever the two limits differ, the wall-clock limit the caller asked
      for never reaches the tool, and without `time` the tool reads "None". */
  lemma WallTimeCarriesTime(o: Options)
    requires o.wallTime.Some?
    ensures Directive(WallTime, Some(OptionalIntToString(o.time))) in Directives(o)
    ensures o.time.None? ==> Directive(WallTime, Some("None")) in Directives(o)
    ensures o.time != o.wallTime ==>
      Directive(WallTime, Some(IntToString(o.wallTime.value))) !in Directives(o)
  {
    DirectivesFromComplete(o, 0, WallTime);
    DirectivesFromSound(o, 0);
    if o.time != o.wallTime {
      OptionalIntToStringRoundTrip(o.time);
      IntToStringRoundTrip(o.wallTime.value);
      assert OptionalIntToString(o.time) != IntToString(o.wallTime.value);
    }
  }

  /** `box_id=n` passes `--box-id` followed by `str(n)`, which reads back as n. */
  lemma BoxIdDirective(o: Options)
    requires o.boxId.Some?
    ensures Directive(BoxId, Some(IntToString(o.boxId.value))) in Directives(o)
    ensures ParseInt(IntToString(o.boxId.value)) == Some(o.boxId.value)
  {
    DirectivesFromComplete(o, 0, BoxId);
    IntToStringRoundTrip(o.boxId.value);
  }

  lemma {:induction false} EmitFromAgrees(o: Options, p: Options, k: nat)
    requires k <= |AllFields|
    requires forall f :: Emit(o, f) == Emit(p, f)
    ensures EmitFrom(o, k) == EmitFrom(p, k)
    decreases |AllFields| - k
  {
    if k < |AllFields| {
      EmitFromAgrees(o, p, k + 1);
    }
  }

  /** Only presence of a boolean-shaped field matters: an explicit `False`
      passes the same flag as `True`. */
  lemma FlagIgnoresValue(o: Options, f: Field, b: bool)
    requires !TakesValue(f)
    ensures var p := SetFlag(o, f, b);
      IsSet(p, f) && AsArgs(p) == AsArgs(SetFlag(o, f, true))
  {
    var p, q := SetFlag(o, f, b), SetFlag(o, f, true);
    forall g ensures Emit(p, g) == Emit(q, g) {
    }
    EmitFromAgrees(p, q, 0);
  }

  /** `o` with the boolean-shaped field `f` set to `b`. */
  function SetFlag(o: Options, f: Field, b: bool): (p: Options)
    requires !TakesValue(f)
  {
    match f
    case StderrToStdout => o.(stderrToStdout := Some(b))
    case ShareNet => o.(shareNet := Some(b))
    case InheritFds => o.(inheritFds := Some(b))
    case Verbose => o.(verbose := Some(b))
    case Silent => o.(silent := Some(b))
  }

  /** With every field absent the argument list is empty. */
  lemma NoOptionsNoArgs()
    ensures AsArgs(NoOptions()) == []
  {
    EmitFromEmpty(NoOptions(), 0);
  }

  lemma {:induction false} EmitFromEmpty(o: Options, k: nat)
    requires k <= |AllFields|
    requires forall f :: !IsSet(o, f)
    ensures EmitFrom(o, k) == []
    decreases |AllFields| - k
  {
    if k < |AllFields| {
      EmitFromEmpty(o, k + 1);
    }
  }
}

=== FILE: paths.dfy ===
/** The POSIX path helpers the sandbox uses (`os.path.isabs`, `os.path.join`
    with two arguments, `os.path.basename`) and `str.startswith`. They work on
    the raw text: no normalisation of `.`, `..` or repeated separators. */
module Paths {

  const Sep: char := '/'

  /** `os.path.isabs(p)`: the path starts with a separator. */
  predicate IsAbs(p: string) {
    |p| > 0 && p[0] == Sep
  }

  /** `s.startswith(prefix)`: a character-wise prefix test, not a test on
      path components. */
  predicate StartsWith(s: string, prefix: string) {
    |prefix| <= |s| && s[..|prefix|] == prefix
  }

  /** `os.path.join(a, b)`: an absolute `b` replaces `a`; otherwise `b` is
      appended to `a`, with one separator between them unless `a` is empty or
      already ends with one. */
  function Join(a: string, b: string): (r: string)
    ensures IsAbs(b) ==> r == b
    ensures !IsAbs(b) ==> StartsWith(r, a) && |r| >= |b| && r[|r| - |b|..] == b
    ensures !IsAbs(b) ==> |r| - |b| - |a| == (if a == [] || a[|a| - 1] == Sep then 0 else 1)
    ensures !IsAbs(b) && |r| > |b| ==> r[|r| - |b| - 1] == Sep
    ensures IsAbs(r) <==> IsAbs(a) || IsAbs(b)
  {
    if IsAbs(b) then b
    else if a == [] || a[|a| - 1] == Sep then a + b
    else a + [Sep] + b
  }

  /** Joining a relative path keeps the directory as a prefix. */
  lemma JoinKeepsPrefix(a: string, b: string)
    requires !IsAbs(b)
    ensures StartsWith(Join(a, b), a)
  {
  }

  /** Joining two relative paths gives a relative path. */
  lemma JoinRelative(a: string, b: string)
    requires !IsAbs(a) && !IsAbs(b)
    ensures !IsAbs(Join(a, b))
  {
  }

  /** The position just after the last separator of `p`, 0 if it has none. */
  function LastSepEnd(p: string): (i: nat)
    ensures i <= |p|
    ensures Sep !in p[i..]
    ensures i > 0 ==> p[i - 1] == Sep
    decreases |p|
  {
    if |p| == 0 then 0
    else if p[|p| - 1] == Sep then |p|
    else
      var i := LastSepEnd(p[..|p| - 1]);
      assert p[i..] == p[..|p| - 1][i..] + [p[|p| - 1]];
      i
  }

  /** The two properties above single out the position. */
  lemma LastSepEndUnique(p: string, i: nat)
    requires i <= |p| && Sep !in p[i..]
    requires i > 0 ==> p[i - 1] == Sep
    ensures LastSepEnd(p) == i
  {
    var j := LastSepEnd(p);
    if j != i {
      assert false;
    }
  }

  /** `os.path.basename(p)`: the text after the last separator. The result is
      a suffix of `p` without any separator, preceded in `p` by a separator
      unless it is all of `p`. */
  function Basename(p: string): (r: string)
    ensures |r| <= |p| && r == p[|p| - |r|..]
    ensures Sep !in r
    ensures |r| < |p| ==> p[|p| - |r| - 1] == Sep
  {
    p[LastSepEnd(p)..]
  }

  /** Joining a directory with a single path segment names that segment:
      `basename(join(a, b)) == b` when `b` holds no separator. */
  lemma BasenameOfJoin(a: string, b: string)
    requires Sep !in b
    ensures Basename(Join(a, b)) == b
  {
    var r := Join(a, b);
    var i := |r| - |b|;
    assert r[i..] == b;
    LastSepEndUnique(r, i);
  }

  /** Joining a relative path onto a directory does not change its base
      name. */
  lemma BasenameOfRelativeJoin(a: string, x: string)
    requires !IsAbs(x)
    ensures Basename(Join(a, x)) == Basename(x)
  {
    var r := Join(a, x);
    var i, j := |r| - |x|, LastSepEnd(x);
    assert r[i..] == x;
    assert r[i + j..] == x[j..];
    if j > 0 {
      assert r[i + j - 1] == x[j - 1];
    }
    LastSepEndUnique(r, i + j);
  }

  /** Joining a single segment onto a directory: the result starts with the
      directory, is named after the segment, and is relative when the
      directory is. */
  lemma JoinSegment(a: string, b: string)
    requires Sep !in b
    ensures !IsAbs(b)
    ensures StartsWith(Join(a, b), a) && Basename(Join(a, b)) == b
    ensures IsAbs(Join(a, b)) <==> IsAbs(a)
  {
    assert !IsAbs(b) by {
      if |b| > 0 {
        assert b[0] in b;
      }
    }
    BasenameOfJoin(a, b);
  }

  /** Two different single segments joined onto the same directory give two
      different paths, each starting with the directory and named after its
      segment. */
  lemma JoinSegments(a: string, b: string, c: string)
    requires Sep !in b && Sep !in c && b != c
    ensures Basename(Join(a, b)) == b && Basename(Join(a, c)) == c
    ensures StartsWith(Join(a, b), a) && StartsWith(Join(a, c), a)
    ensures Join(a, b) != Join(a, c)
  {
    JoinSegment(a, b);
    JoinSegment(a, c);
  }
}

=== FILE: sandbox.dfy ===
/** `IsolateSandbox`: one initialised box of the `isolate` tool, its directory
    layout, and the three things it can do: place a host file in the box, run
    a program in the box, and tear the box down. Calls of the external tool
    and the file-system queries are parameters of the model; what the model
    computes is the command line of each call, the checks made before any
    file is written, and how the tool's answer is turned into an error. */
module Sandbox {
  import opened Wrappers
  import opened Strings
  import opened Paths
  import opened IsolateOptions

  /** What one call of the external tool reported
      (`subprocess.CompletedProcess`), with both streams taken as text: the
      output is assumed to decode as UTF-8. */
  datatype Completed = Completed(returncode: int, stdout: string, stderr: string)

  /** The exceptions the wrapper raises. The first three are
      `IsolateException`s, the next two `IsolateInitException`s; `Raised` is
      whatever the caller's own code raises inside the `with` block. */
  datatype Error =
    | DestinationOutsideBox(destination: string, boxdir: string)
    | SourceMissing(source: string)
    | TeardownFailed(returncode: int, output: string)
    | InitFailed(returncode: int, output: string)
    | InitWrapped(cause: Error)
    | Raised(message: string)
  {
    predicate IsInitException() {
      InitFailed? || InitWrapped?
    }
  }

  /** An initialised sandbox: the options it was created with, the host
      directory the tool reported, the box id as a string, and the two
      directories below the working directory. */
  datatype Sandbox = Sandbox(
    options: Options,
    workdir: string,
    boxId: string,
    boxdir: string,
    tmpdir: string)

  /** `IsolateSandbox.__init__`: the box directory is `workdir/box` and the
      scratch directory `workdir/tmp`. */
  function NewSandbox(options: Options, workdir: string, boxId: string): (s: Sandbox) {
    Sandbox(options, workdir, boxId, Join(workdir, "box"), Join(workdir, "tmp"))
  }

  /** The layout of a new sandbox: it keeps what it was given, and its two
      directories are different, both start with the working directory, and
      are named `box` and `tmp`. */
  lemma SandboxLayout(options: Options, workdir: string, boxId: string)
    ensures var s := NewSandbox(options, workdir, boxId);
      && s.options == options && s.workdir == workdir && s.boxId == boxId
      && Basename(s.boxdir) == "box" && Basename(s.tmpdir) == "tmp"
      && StartsWith(s.boxdir, workdir) && StartsWith(s.tmpdir, workdir)
      && s.boxdir != s.tmpdir
  {
    JoinSegments(workdir, "box", "tmp");
  }

  /** The path `add_file` is asked to write: the given destination, or the
      source's base name inside the box. */
  function Requested(s: Sandbox, source: string, destination: Option<string>): (path: string) {
    destination.GetOr(Join(s.boxdir, Basename(source)))
  }

  /** The only containment check `add_file` makes: an absolute destination
      must start, as a string, with the box directory. */
  predicate Escapes(s: Sandbox, d: string) {
    IsAbs(d) && !StartsWith(d, s.boxdir)
  }

  /** `add_file(source, destination)` up to the point where it starts writing:
      the checks, in the order `add_file` makes them, and the path it then
      writes to. `sourceExists` is the host's answer to `os.path.exists`. A
      `Success` stands for "the target was created and the source copied into
      it"; a `Failure` for "nothing was written". */
  function AddFile(s: Sandbox, source: string, destination: Option<string>, sourceExists: bool)
    : (r: Result<string, Error>)
    ensures r.Failure? && r.error.DestinationOutsideBox?
      <==> Escapes(s, Requested(s, source, destination))
    ensures r.Failure? && r.error.SourceMissing?
      <==> !sourceExists && !Escapes(s, Requested(s, source, destination))
    ensures r.Success? ==> sourceExists && StartsWith(r.value, s.boxdir)
  {
    var d := Requested(s, source, destination);
    if Escapes(s, d) then
      Failure(DestinationOutsideBox(d, s.boxdir))
    else if !sourceExists then
      Failure(SourceMissing(source))
    else if IsAbs(d) then
      Success(d)
    else
      JoinKeepsPrefix(s.boxdir, d);
      Success(Join(s.boxdir, d))
  }

  /** The command `run(run_args)` hands to the tool: `isolate --run`, the
      sandbox's directives, `--`, then the program and its arguments
      untouched. */
  function RunCommand(s: Sandbox, runArgs: seq<string>): (cmd: seq<string>)
    ensures |cmd| == 3 + |AsArgs(s.options)| + |runArgs|
    ensures cmd[..2] == ["isolate", "--run"]
    ensures Parse(cmd[2..|cmd| - |runArgs| - 1]) == Success(Directives(s.options))
    ensures cmd[|cmd| - |runArgs| - 1] == "--"
    ensures cmd[|cmd| - |runArgs|..] == runArgs
  {
    var cmd := ["isolate", "--run"] + AsArgs(s.options) + ["--"] + runArgs;
    Pieces(["isolate", "--run"], AsArgs(s.options), "--", runArgs);
    AsArgsDecodes(s.options);
    cmd
  }

  /** The parts of `a + m + [x] + c`, read back by position. */
  lemma Pieces<T>(a: seq<T>, m: seq<T>, x: T, c: seq<T>)
    ensures var s := a + m + [x] + c;
      && |s| == |a| + |m| + 1 + |c|
      && s[..|a|] == a
      && s[|a|..|s| - |c| - 1] == m
      && s[|s| - |c| - 1] == x
      && s[|s| - |c|..] == c
  {
    var s := a + m + [x] + c;
    assert s[..|a|] == a;
    assert s[|a|..|s| - |c| - 1] == m;
    assert s[|s| - |c|..] == c;
  }

  /** One call of the external tool, or an abstract step around one. */
  datatype Event =
    | Invoke(command: seq<string>)
    | EmptyBox(dir: string)
    | Enter(sandbox: Sandbox)

  /** The tool calls and file-system steps of an operation, and the exception
      it ends with, if any. */
  datatype Step = Step(events: seq<Event>, error: Option<Error>)

  /** `run(run_args)`: one call of the tool, whose result is handed back as is,
      with no interpretation of the return code. */
  datatype RunResult = RunResult(events: seq<Event>, result: Completed)

  function Run(s: Sandbox, runArgs: seq<string>, process: Completed): (r: RunResult)
    ensures r.events == [Invoke(RunCommand(s, runArgs))]
    ensures r.result == process
  {
    RunResult([Invoke(RunCommand(s, runArgs))], process)
  }

  /** The command that tears the sandbox down. */
  function TeardownCommand(s: Sandbox): (cmd: seq<string>) {
    ["isolate", "--cleanup", "--box-id", s.boxId]
  }

  /** Whether an event is a teardown call of the tool. */
  predicate IsTeardown(e: Event) {
    e.Invoke? && |e.command| >= 2 && e.command[1] == "--cleanup"
  }

  /** `cleanup()`: the box is emptied first, then the tool is asked to tear
      the box down, and a non-zero return code raises an `IsolateException`
      carrying the tool's output. */
  function Cleanup(s: Sandbox, teardown: Completed): (r: Step)
    ensures |r.events| == 2 && r.events[0] == EmptyBox(s.boxdir)
    ensures IsTeardown(r.events[1]) && r.events[1] == Invoke(["isolate", "--cleanup", "--box-id", s.boxId])
    ensures r.error.Some? <==> teardown.returncode != 0
    ensures r.error.Some? ==>
      r.error.value == TeardownFailed(teardown.returncode, teardown.stdout + teardown.stderr)
      && !r.error.value.IsInitException()
  {
    var events := [EmptyBox(s.boxdir), Invoke(TeardownCommand(s))];
    if teardown.returncode != 0 then
      Step(events, Some(TeardownFailed(teardown.returncode, teardown.stdout + teardown.stderr)))
    else
      Step(events, None)
  }

  /** A relative destination is placed below the box directory; an accepted
      absolute one is used unchanged. */
  lemma AddFileDestination(s: Sandbox, source: string, d: string)
    ensures !IsAbs(d) ==> AddFile(s, source, Some(d), true) == Success(Join(s.boxdir, d))
    ensures IsAbs(d) && StartsWith(d, s.boxdir) ==> AddFile(s, source, Some(d), true) == Success(d)
  {
  }

  /** The default destination is the source's base name inside an absolute
      box directory. */
  lemma AddFileDefault(s: Sandbox, source: string)
    requires IsAbs(s.boxdir)
    ensures AddFile(s, source, None, true) == Success(Join(s.boxdir, Basename(source)))
  {
    JoinSegment(s.boxdir, Basename(source));
  }

  /** With a relative box directory the default destination, already joined
      onto the box, is joined onto it a second time; the file still keeps its
      name. */
  lemma AddFileDefaultRelative(s: Sandbox, source: string)
    requires !IsAbs(s.boxdir)
    ensures AddFile(s, source, None, true)
      == Success(Join(s.boxdir, Join(s.boxdir, Basename(source))))
    ensures Basename(AddFile(s, source, None, true).value) == Basename(source)
  {
    var b := Basename(source);
    JoinSegment(s.boxdir, b);
    var d := Join(s.boxdir, b);
    assert Requested(s, source, None) == d;
    assert !Escapes(s, d);
    BasenameOfRelativeJoin(s.boxdir, d);
  }

  /** The destination check is made before the source is looked up: an
      escaping destination is reported even for a missing source. */
  lemma EscapeCheckedFirst(s: Sandbox, source: string, destination: string)
    requires Escapes(s, destination)
    ensures AddFile(s, source, Some(destination), false)
      == Failure(DestinationOutsideBox(destination, s.boxdir))
  {
  }

  /** A sandbox whose working directory is `/w`. */
  function ExampleSandbox(): (s: Sandbox)
    ensures s.boxdir == "/w/box"
  {
    NewSandbox(NoOptions(), "/w", "None")
  }

  /** The containment check rejects an absolute path outside the box. */
  lemma RejectsOutsidePath()
    ensures AddFile(ExampleSandbox(), "f", Some("/etc/passwd"), true)
      == Failure(DestinationOutsideBox("/etc/passwd", "/w/box"))
  {
    assert "/etc/passwd"[1] != "/w/box"[1];
  }

  /** The containment check is on raw text: a relative `../../etc/passwd` is
      accepted and lands outside the box once the file system resolves it. */
  lemma AcceptsParentSegments()
    ensures AddFile(ExampleSandbox(), "f", Some("../../etc/passwd"), true)
      == Success("/w/box/../../etc/passwd")
  {
    assert Join("/w/box", "../../etc/passwd") == "/w/box/../../etc/passwd";
  }

  /** The containment check is a string prefix test: a sibling directory whose
      name starts with `box` is accepted. */
  lemma AcceptsSiblingWithBoxPrefix()
    ensures AddFile(ExampleSandbox(), "f", Some("/w/boxer/f"), true) == Success("/w/boxer/f")
  {
    assert "/w/boxer/f"[..6] == "/w/box";
  }
}

=== FILE: strings.dfy ===
/** The few Python string conversions the wrapper relies on: `str()` of an
    integer, of an optional integer and of an integer pair, and `str.strip()`. */
module Strings {
  import opened Wrappers

  /** The decimal digit character for `d`. */
  function DigitChar(d: nat): (c: char)
    requires d < 10
    ensures '0' <= c <= '9'
    ensures c as int - '0' as int == d
  {
    ['0', '1', '2', '3', '4', '5', '6', '7', '8', '9'][d]
  }

  predicate IsDigit(c: char) {
    '0' <= c <= '9'
  }

  predicate AllDigits(s: string) {
    forall i :: 0 <= i < |s| ==> IsDigit(s[i])
  }

  /** Python's `str(n)` for a non-negative integer: its decimal digits, most
      significant first, with no leading zero. */
  function NatToString(n: nat): (r: string)
    ensures |r| > 0
    ensures AllDigits(r)
    ensures |r| > 1 ==> r[0] != '0'
    decreases n
  {
    if n < 10 then [DigitChar(n)] else NatToString(n / 10) + [DigitChar(n % 10)]
  }

  /** Python's `str(i)` for any integer: a minus sign before the digits of a
      negative number. */
  function IntToString(i: int): (r: string)
    ensures |r| > 0
    ensures i < 0 <==> r[0] == '-'
    ensures i >= 0 ==> AllDigits(r)
    ensures i < 0 ==> |r| > 1 && AllDigits(r[1..])
  {
    if i < 0 then "-" + NatToString(-i) else NatToString(i)
  }

  /** Python's `str(x)` for `x: Optional[int]`: the digits, or "None". */
  function OptionalIntToString(x: Option<int>): (r: string)
  {
    match x
    case Some(i) => IntToString(i)
    case None => "None"
  }

  /** Python's `str((a, b))` for a pair of integers. */
  function PairToString(p: (int, int)): (r: string)
  {
    "(" + IntToString(p.0) + ", " + IntToString(p.1) + ")"
  }

  /** The value of a string of decimal digits (reference decoder). */
  function DigitsValue(s: string): (n: nat)
    requires AllDigits(s)
    decreases |s|
  {
    if |s| == 0 then 0
    else DigitsValue(s[..|s| - 1]) * 10 + (s[|s| - 1] as int - '0' as int)
  }

  /** Reads back an integer written in decimal with an optional leading minus
      sign; anything else (for instance "None") is not an integer. */
  function ParseInt(s: string): (r: Option<int>)
    ensures r.Some? ==> |s| > 0
  {
    if |s| > 1 && s[0] == '-' && AllDigits(s[1..]) then Some(0 - DigitsValue(s[1..]))
    else if |s| > 0 && AllDigits(s) then Some(DigitsValue(s))
    else None
  }

  lemma {:induction false} DigitsValueOfNatToString(n: nat)
    ensures DigitsValue(NatToString(n)) == n
    decreases n
  {
    var s := NatToString(n);
    if n >= 10 {
      DigitsValueOfNatToString(n / 10);
      assert s[..|s| - 1] == NatToString(n / 10);
    }
  }

  /** `str()` of an integer can be read back: distinct integers give distinct
      strings, and none of them is "None". */
  lemma IntToStringRoundTrip(i: int)
    ensures ParseInt(IntToString(i)) == Some(i)
  {
    if i < 0 {
      var d := NatToString(-i);
      DigitsValueOfNatToString(-i);
      assert IntToString(i) == "-" + d;
      assert ("-" + d)[1..] == d;
    } else {
      var d := NatToString(i);
      DigitsValueOfNatToString(i);
      assert IntToString(i) == d;
      assert IsDigit(d[0]);
    }
  }

  lemma OptionalIntToStringRoundTrip(x: Option<int>)
    ensures ParseInt(OptionalIntToString(x)) == x
  {
    match x
    case Some(i) => IntToStringRoundTrip(i);
    case None => assert !IsDigit('N');
  }

  /** The characters Python's `str.isspace()` accepts, which `str.strip()`
      removes when called without arguments. */
  predicate IsSpace(c: char) {
    || c == ' '
    || ('\t' <= c <= '\r')
    || ('\U{1C}' <= c <= '\U{1F}')
    || c == '\U{85}'
    || c == '\U{A0}'
    || c == '\U{1680}'
    || ('\U{2000}' <= c <= '\U{200A}')
    || c == '\U{2028}'
    || c == '\U{2029}'
    || c == '\U{202F}'
    || c == '\U{205F}'
    || c == '\U{3000}'
  }

  /** `s` without its leading whitespace: a suffix of `s`, everything cut off
      is whitespace, and what remains does not start with whitespace. */
  function StripStart(s: string): (r: string)
    ensures |r| <= |s| && r == s[|s| - |r|..]
    ensures forall k :: 0 <= k < |s| - |r| ==> IsSpace(s[k])
    ensures |r| > 0 ==> !IsSpace(r[0])
    decreases |s|
  {
    if |s| > 0 && IsSpace(s[0]) then StripStart(s[1..]) else s
  }

  /** `s` without its trailing whitespace: a prefix of `s`, everything cut off
      is whitespace, and what remains does not end with whitespace. */
  function StripEnd(s: string): (r: string)
    ensures |r| <= |s| && r == s[..|r|]
    ensures forall k :: |r| <= k < |s| ==> IsSpace(s[k])
    ensures |r| > 0 ==> !IsSpace(r[|r| - 1])
    decreases |s|
  {
    if |s| > 0 && IsSpace(s[|s| - 1]) then StripEnd(s[..|s| - 1]) else s
  }

  /** How many whitespace characters `s.strip()` removes from the front. */
  function LeadingSpaces(s: string): (n: nat)
    ensures n <= |s|
  {
    |s| - |StripStart(s)|
  }

  /** Python's `s.strip()`: the slice of `s` left after removing whitespace
      at both ends. */
  function Strip(s: string): (r: string)
    ensures LeadingSpaces(s) + |r| <= |s|
    ensures r == s[LeadingSpaces(s)..LeadingSpaces(s) + |r|]
    ensures forall k :: 0 <= k < LeadingSpaces(s) ==> IsSpace(s[k])
    ensures forall k :: LeadingSpaces(s) + |r| <= k < |s| ==> IsSpace(s[k])
  {
    var t := StripStart(s);
    StripEndOfSuffix(s, |s| - |t|);
    StripEnd(t)
  }

  /** Only whitespace is removed: what `strip()` returns neither starts nor
      ends with whitespace. */
  lemma StripLeavesNoSpaceAtEnds(s: string)
    ensures var r := Strip(s);
      |r| > 0 ==> !IsSpace(r[0]) && !IsSpace(r[|r| - 1])
  {
    var t := StripStart(s);
    var r := StripEnd(t);
    if |r| > 0 {
      assert r[0] == t[0];
    }
  }

  /** Removing trailing whitespace from the suffix of `s` that starts at `i`
      leaves a slice of `s`, and everything after that slice is whitespace. */
  lemma StripEndOfSuffix(s: string, i: nat)
    requires i <= |s|
    ensures var r := StripEnd(s[i..]);
      && i + |r| <= |s| && r == s[i..i + |r|]
      && forall k :: i + |r| <= k < |s| ==> IsSpace(s[k])
  {
    var t := s[i..];
    var r := StripEnd(t);
    assert r == t[..|r|] == s[i..i + |r|];
    forall k | i + |r| <= k < |s|
      ensures IsSpace(s[k])
    {
      assert s[k] == t[k - i];
    }
  }

  /** Stripping twice is stripping once. */
  lemma StripIdempotent(s: string)
    ensures Strip(Strip(s)) == Strip(s)
  {
    var r := Strip(s);
    StripLeavesNoSpaceAtEnds(s);
    if |r| > 0 {
      assert StripStart(r) == r;
      assert StripEnd(r) == r;
    }
  }
}

=== FILE: wrappers.dfy ===
/** Optional values and results with an error, used in place of Python's
    `None` and of raised exceptions. */
module Wrappers {

  /** A value that may be absent: Python's `Optional[T]`. */
  datatype Option<+T> = None | Some(value: T) {

    /** The value, or `default` when absent. */
    function GetOr(default: T): T {
      match this
      case Some(v) => v
      case None => default
    }
  }

  /** The outcome of an operation that either produces a value or raises. */
  datatype Result<+R, +E> = Success(value: R) | Failure(error: E) {

    predicate IsFailure() {
      Failure?
    }

    function PropagateFailure<U>(): Result<U, E>
      requires Failure?
    {
      Failure(error)
    }

    function Extract(): R
      requires Success?
    {
      value
    }
  }
}
